=== FILE: README.md ===
# Cafe finder card stack, modelled in Dafny

The cafe finder shows a deck of cafe cards. The user drags the top card left to skip it
or right to save it, or presses the skip and like buttons. Saved cafes go to a list that
is written to durable storage. This project models the logic of `src/CafeFinder.js`:

- **Gesture tracker** (`gesture.dfy`, module `Gesture`). The per-card pointer handlers form
  a state machine with states `Idle` and `Dragging(startX, startY)`. A press only arms the
  top card. Moves make the card follow the pointer with a tilt of 0.05 degrees per pixel.
  A release commits a swipe only when the horizontal travel strictly exceeds 100 pixels.
  The direction is `Right` iff the travel is positive, and the card flies out to +1000 or
  -1000. Otherwise the card snaps back. Pointer-cancel is wired to the release handler, so
  a cancelled long drag still commits.
- **Deck and saved list** (`deck.dfy`, module `Deck`; `controller.dfy`, module `Controller`).
  `handleSwipe` filters the swiped id out of the deck. On a right swipe it appends the card
  to the saved list unless a saved entry already has its id. When it appends, it also
  rewrites the storage record. The skip and like buttons do the same for the front card,
  and do nothing on an empty deck.
- **Stack layout** (`layout.dfy`, module `Layout`). Each position `i` from the top gets
  z-index `100 - i`, scale `1 - 0.05 i`, offset `15 i` pixels, and opacity 0 iff `i > 2`.
  The render loop skips every position with `i > length - 3`. So the last two cards of
  any deck are never mounted, and a deck of one or two cards shows no card to drag.
  `Controller.DragDeck` routes pointer events through this filter, one event at a time,
  and handles each decision as soon as it is emitted.
- **Place normaliser** (`places.dfy`, module `Places`). This maps nearby-search results to
  cards, with a placeholder photo when `photos` is absent. It also models what the fetch
  does to the deck on success, on a reply without results, and on failure.
- `cafes.dfy` (module `Cafes`) holds the card entity, the id queries and the five seed
  cafes. `results.dfy` (module `Results`) holds `Option` and `Result`.

Coordinates are integers. Rotation and scale are exact reals. The front of the deck
sequence is the top card.

Behaviours of the code that a reader might not expect:

- The commit test is strict: a travel of exactly 100 snaps back.
- A pointer-cancel is handled exactly like a release and can commit. `Gesture.CancelCanCommit`
  and `Controller.CancelActsAsRelease` state this.
- A malformed storage record stops the app at startup. There is no fallback to an empty
  list: `Controller.Start` fails on `Malformed`.
- Loading a deck does not check for duplicate ids. `Places.FetchMayRepeatIds` shows a
  fetch that yields two cards with one id. A removal then drops both.
- Dragging B on the deck [B, C] does nothing, because neither card is mounted. Only the
  buttons remove B; skip does so without saving it (`Controller.SkipScenario`).

## Model

| member | source | states |
|---|---|---|
| Cafes.AnyHasId | src/CafeFinder.js:243 | the `some` test is true iff some entry of the list carries the id |
| Cafes.SeedCafes | src/CafeFinder.js:9-15 | the seed deck has five cards whose ids are 1 to 5 in order, so no id repeats |
| Deck.RemoveById | src/CafeFinder.js:239 | the filtered deck holds exactly the cards of the old deck whose id differs; it is shorter iff the id was present |
| Deck.RemoveAbsentIsIdentity | src/CafeFinder.js:239 | removing an id no card carries leaves the deck unchanged |
| Deck.RemoveDistributes | src/CafeFinder.js:239 | filtering a concatenation is the concatenation of the filtered parts, so removal acts on each card in place |
| Deck.RemoveKeepsOrder | src/CafeFinder.js:239 | the remaining cards are a subsequence of the old deck, in their old relative order |
| Deck.RemoveIdempotent | src/CafeFinder.js:239 | removing the same id again changes nothing |
| Deck.RemoveFirst | src/CafeFinder.js:239 | on a deck without duplicate ids, removing the front card's id leaves exactly the rest of the deck |
| Deck.RemovePresentShrinksByOne | src/CafeFinder.js:239 | on a deck without duplicate ids, removing a present id drops exactly one card |
| Deck.RemovePreservesUniqueIds | src/CafeFinder.js:239 | removal never creates a duplicate id |
| Deck.AddSaved | src/CafeFinder.js:243-244 | the old saved list is a prefix of the new one, which grows by at most one, always carries the card's id, and keeps ids unique |
| Deck.AddSavedAppendsIffNew | src/CafeFinder.js:243-244 | the card is appended iff no saved entry has its id, and the list is unchanged iff one does |
| Deck.AddSavedIdempotent | src/CafeFinder.js:243-244 | saving the same card twice equals saving it once |
| Gesture.Rotation | src/CafeFinder.js:38 | the tilt divided by 0.05 gives back the horizontal travel, and has the travel's sign |
| Gesture.PointerDown | src/CafeFinder.js:26-29 | a press on a card that is not on top leaves the tracker as it was; a press on the top card arms it at the press position |
| Gesture.PointerMove | src/CafeFinder.js:34-40 | while tracking (`Gesture.Tracking`: dragging, top card, element mounted), the card's offset is the pointer's travel from the press and its tilt is 0.05 degrees per pixel of it; otherwise nothing is painted |
| Gesture.PointerUp | src/CafeFinder.js:45-69 | releases that are not tracked (`Gesture.Tracking`) are ignored; a tracked one always ends the drag, and commits iff the travel is above 100 or below -100; the direction is right iff the travel is positive, the exit offset is 1000 in the travel's direction, and the tilt equals the drag's |
| Gesture.HandleEvent | src/CafeFinder.js:75-78 | presses and moves never emit a decision; moves never change the tracker; a cancel runs the release handler; a decision only comes from a release or cancel, names the card, and leaves the tracker idle |
| Gesture.Run | src/CafeFinder.js:21-70 | a run of events emits at most one decision per event, and each names the card's own data |
| Gesture.OneDecisionPerSession | src/CafeFinder.js:45-64 | a run emits no more decisions than it has presses, plus one for a drag already under way |
| Gesture.NonTopCardIsInert | src/CafeFinder.js:27 | a card that is not on top never changes its tracker and never emits a decision, whatever the events |
| Gesture.ReleaseEndsDrag | src/CafeFinder.js:46-48 | a final release or cancel on the mounted top card always leaves the tracker idle |
| Gesture.PressRelease | src/CafeFinder.js:51-57 | a press and a release on the top card emit no decision for a travel within 100, a right decision above 100, and a left decision below -100 |
| Gesture.CancelCanCommit | src/CafeFinder.js:78 | a cancel at a travel of 150 emits a right swipe |
| Layout.StyleAt | src/CafeFinder.js:312-316 | a card is opaque iff it is within two positions of the top; only the top card has z-index 100, scale 1 and no offset |
| Layout.StyleSteps | src/CafeFinder.js:313-315 | each position further down is exactly one z-index lower, one 0.05 scale step smaller and one 15px offset step lower |
| Layout.DeeperCardsSitBehind | src/CafeFinder.js:313-315 | a deeper card has a lower z-index, a smaller scale, a larger offset, and is never more opaque |
| Layout.RenderFrom | src/CafeFinder.js:291-319 | the mounted cards are positions `from` to length-3 in order, each with its card, its style, and marked interactive iff it is position 0 |
| Layout.RenderStack | src/CafeFinder.js:291-293 | the whole mounted stack is the first length-2 positions of the deck in order, each with its card and style, interactive iff it is position 0 |
| Layout.RenderedPositions | src/CafeFinder.js:293 | under the render filter `Layout.IsRendered`, a position is mounted iff it is at least three positions from the end |
| Layout.TopCardMountedIff | src/CafeFinder.js:293-311 | an interactive card is mounted iff the deck has at least three cards, and it is then the front card, frontmost |
| Places.PhotoUrl | src/CafeFinder.js:225-226 | a photo URL starts with the photo endpoint and is longer than the placeholder URL |
| Places.PhotoUrlRoundTrip | src/CafeFinder.js:226 | the photo reference can be read back from the photo URL |
| Places.ToCafe | src/CafeFinder.js:220-228 | mapping fails iff `photos` is an empty list; otherwise the card copies id, name and rating, takes open-now from the opening hours if any, and shows the placeholder iff there are no photos, else a URL encoding the first photo's reference |
| Places.ToCafes | src/CafeFinder.js:219-228 | the result list fails iff some record fails; otherwise it maps every record in order |
| Places.FetchNearbyCafes | src/CafeFinder.js:202-235 | any alert leaves the deck unchanged; a missing result list changes nothing; a result list replaces the deck iff all its records map, else the failure alert shows |
| Places.FetchMayRepeatIds | src/CafeFinder.js:219-229 | two records with one place id both land in the deck |
| Controller.LoadSaved | src/CafeFinder.js:176-179 | reading the record fails iff it is malformed; a non-empty result always comes from a written list |
| Controller.RecordRoundTrip | src/CafeFinder.js:178 | a written list reads back unchanged |
| Controller.Start | src/CafeFinder.js:174-179 | startup fails iff the record is malformed; otherwise the deck is empty and the saved list is the one persisted |
| Controller.HandleSwipe | src/CafeFinder.js:237-249 | the card's id leaves the deck; a left swipe leaves the saved list and record alone; a right swipe performs the deduplicating save; the record is either untouched or the new saved list; unique ids and persistence are kept |
| Controller.SameDecisionTwice | src/CafeFinder.js:237-249 | handling the same decision twice equals handling it once |
| Controller.LikeSurvivesRestart | src/CafeFinder.js:176-178 | after a like, a restart reads back the saved list, which holds the card's id once, behind the old entries |
| Controller.SkipTop | src/CafeFinder.js:334-336 | the skip button never touches the saved list or record and does nothing on an empty deck; otherwise it is a left swipe of the front card, for any deck. The deck shrinks, and it keeps exactly the cards whose id differs from the front card's, in their old order |
| Controller.LikeTop | src/CafeFinder.js:343-345 | the like button does nothing on an empty deck; otherwise it is a right swipe of the front card, for any deck. The deck keeps exactly the cards whose id differs from the front card's, in their old order. The front card itself is saved unless its id already was, no other card is saved, old saved entries stay in place, at most one is added, and the invariant is kept |
| Controller.ButtonsOnRepeatedId | src/CafeFinder.js:334-345 | on [A, A2, B] with A and A2 sharing an id, both buttons leave [B] and like saves A, not A2 |
| Controller.ButtonsTakeTheFrontCard | src/CafeFinder.js:333-345 | on a deck without duplicate ids both buttons remove exactly the front card; like saves it, skip does not |
| Controller.LoadCafes | src/CafeFinder.js:188-200 | loading never touches the saved list; mock data makes the deck exactly the five seed cards, with unique ids; a failed fetch leaves everything unchanged |
| Controller.DragDeck | src/CafeFinder.js:307-311 | events handled one at a time, each decision as soon as it is emitted, keep the invariant, keep old saved entries in place, never grow the deck nor create a duplicate id; presses and moves alone change nothing; every saved card was already saved or was on the deck |
| Controller.DragTopCard | src/CafeFinder.js:291-311 | pointer events on a freshly rendered deck keep the invariant, keep old saved entries in place, never grow the deck nor create a duplicate id; presses and moves alone change nothing; every saved card was already saved or was on the deck; on a deck without duplicate ids the result is the deck with some first k cards taken off, and only those k can have been saved |
| Controller.DragTakesFrontCards | src/CafeFinder.js:307-311 | on a deck without duplicate ids, any run of pointer events removes a prefix of the deck and saves only cards from that prefix |
| Controller.FlickThenFlick | src/CafeFinder.js:293 | on [A, B, C], a left flick then a right flick remove A unsaved and leave the second flick with no mounted card to reach |
| Controller.SwipeFrontCard | src/CafeFinder.js:51-64 | on any deck of three or more cards, a drag within 100 changes nothing, above 100 is a right swipe of the front card and below -100 a left swipe of it; on such a deck without duplicate ids, above 100 the front card goes and is saved, below -100 the front card goes and nothing else changes |
| Controller.ShortDeckIgnoresDrags | src/CafeFinder.js:293 | on a deck of one or two cards no event sequence changes anything, while the skip button still shrinks the deck |
| Controller.CancelActsAsRelease | src/CafeFinder.js:78 | ending a drag with a cancel has the same effect as a release at the same point |
| Controller.LikeScenario | src/CafeFinder.js:237-249 | on [A, B, C], a right drag of 150, released or cancelled, gives deck [B, C] and saved list [A] |
| Controller.SkipScenario | src/CafeFinder.js:334-335 | on [B, C], a left drag of 150 changes nothing, while skip gives deck [C] and keeps the saved list |

## Left out

- `api/photo.js` and `api/places.js`: server-side proxies that forward requests to the
  mapping service. Their only logic is a missing-parameter and missing-key check.
- Serialization: the storage record is an abstract value holding the list. JSON text and
  its round trip through `JSON.stringify` and `JSON.parse` are not modelled.
- Timing: the 200 ms delay before a committed decision, the 800 ms mock-data delay, and
  React's batched state updates. Each decision is handled as soon as it is emitted, before
  the next pointer event. A second gesture landing inside the 200 ms delay, and the stale
  `savedCafes` that two decisions inside one render could both read, are not modelled.
- The loading flag, the empty-deck message, alert display, console logging, and the
  position values from geolocation. The fetch is an input `Places.Fetch` that says how the
  request ended.
- DOM and CSS effects: pointer capture, transition strings, all markup, the `SavedList`
  overlay, and the like/nope hint overlays. The press position's `y` is recorded but never
  read by the source, and is only carried along.
- Floating point: pointer coordinates are integers; tilt and scale are exact reals.
- Controller.LoadCafes: the contents of a fetched deck are stated by
  `Places.FetchNearbyCafes`, not repeated here.
- Controller.DragTopCard: cards are always mounted with an element reference, so the
  `cardRef.current` guard is only exercised at the level of `Gesture.PointerUp`.

=== FILE: cafes.dfy ===
/** The card entity of the cafe finder and the id-level queries over sequences of cards
    that the deck and the saved list share. */
module Cafes {
  import opened Results

  /** The seed cafes carry small integer ids, nearby-search results carry the upstream
      `place_id` string. Strict equality never equates an integer with a string, so the
      two kinds are distinct constructors. */
  datatype CafeId = SeedId(n: int) | PlaceId(placeId: string)

  /** A card. `rating` and `openNow` may be absent in upstream records. */
  datatype Cafe = Cafe(id: CafeId, name: string, rating: Option<real>, openNow: Option<bool>, photo: string)

  /** Whether some card of the list carries `id`, scanning from the front. */
  function AnyHasId(cs: seq<Cafe>, id: CafeId): (b: bool)
    ensures b <==> exists i :: 0 <= i < |cs| && cs[i].id == id
    decreases |cs|
  {
    if |cs| == 0 then false
    else if cs[0].id == id then true
    else
      var rest := AnyHasId(cs[1..], id);
      assert rest ==> exists i :: 0 <= i < |cs| && cs[i].id == id by {
        if rest {
          var j :| 0 <= j < |cs[1..]| && cs[1..][j].id == id;
          assert cs[j + 1].id == id;
        }
      }
      assert (exists i :: 0 <= i < |cs| && cs[i].id == id) ==> rest by {
        if exists i :: 0 <= i < |cs| && cs[i].id == id {
          var i :| 0 <= i < |cs| && cs[i].id == id;
          assert i > 0 && cs[1..][i - 1].id == id;
        }
      }
      rest
  }

  /** No two cards of the sequence share an id. */
  predicate UniqueIds(cs: seq<Cafe>) {
    forall i, j :: 0 <= i < j < |cs| ==> cs[i].id != cs[j].id
  }

  /** The fixed seed deck loaded while mock data is switched on. */
  function SeedCafes(): (r: seq<Cafe>)
    ensures |r| == 5
    ensures UniqueIds(r)
    ensures forall i :: 0 <= i < |r| ==> r[i].id == SeedId(i + 1)
  {
    var r := SeedRecords();
    assert r[0].id == SeedId(1) && r[1].id == SeedId(2) && r[2].id == SeedId(3);
    assert r[3].id == SeedId(4) && r[4].id == SeedId(5);
    r
  }

  const SeedPhotoHost: string := "https://images.unsplash.com/"
  const SeedPhotoQuery: string := "?auto=format&fit=crop&w=600&q=80"

  /** One seed card: every seed cafe has a rating, a known opening state and a hosted photo. */
  function SeedCafe(n: int, name: string, rating: real, openNow: bool, photo: string): Cafe {
    Cafe(SeedId(n), name, Some(rating), Some(openNow), SeedPhotoHost + photo + SeedPhotoQuery)
  }

  /** The literal seed records, in deck order. */
  function SeedRecords(): seq<Cafe>
  {
    [ SeedCafe(1, "The Daily Grind", 4.8, true, "photo-1509042239860-f550ce710b93"),
      SeedCafe(2, "Espresso Lab", 4.5, true, "photo-1554118811-1e0d58224f24"),
      SeedCafe(3, "Bean & Leaf", 4.2, false, "photo-1497935586351-b67a49e012bf"),
      SeedCafe(4, "Morning Brew", 4.9, true, "photo-1521017432531-fbd92d768814"),
      SeedCafe(5, "Code & Coffee", 5.0, true, "photo-1495474472287-4d71bcdd2085") ]
  }
}

=== FILE: controller.dfy ===
/** The app component: the deck, the saved list and its durable record, the swipe handler
    shared by gestures and buttons, deck loading, and the path from pointer events on the
    top card to changes of the deck and the saved list. */
module Controller {
  import opened Results
  import opened Cafes
  import opened Deck
  import opened Gesture
  import Layout
  import Places

  /** The `savedCafes` entry of durable storage, as the startup code reads it. */
  datatype Record =
    | NoRecord
    /** An empty string: falsy, so it reads like a missing entry. */
    | EmptyText
    | Serialized(items: seq<Cafe>)
    /** Text that does not hold a serialized list; the app fails to start on it. */
    | Malformed

  datatype LoadError = UnparsableRecord

  /** Reading the record at startup: a missing or empty entry gives the empty list, and a
      malformed one has no fallback, so the app fails to start. */
  function LoadSaved(rec: Record): (r: Result<seq<Cafe>, LoadError>)
    ensures r.Failure? <==> rec.Malformed?
    ensures r.Success? && |r.value| > 0 ==> rec == Serialized(r.value)
  {
    match rec
    case NoRecord => Success([])
    case EmptyText => Success([])
    case Serialized(items) => Success(items)
    case Malformed => Failure(UnparsableRecord)
  }

  /** Writing a list and reading it back yields the same list. */
  lemma RecordRoundTrip(saved: seq<Cafe>)
    ensures LoadSaved(Serialized(saved)) == Success(saved)
  {
  }

  /** Component state: `cafes` (front is the top card), `savedCafes`, and the record. */
  datatype App = App(cafes: seq<Cafe>, saved: seq<Cafe>, record: Record)

  /** A restart would load exactly the saved list held in memory. */
  predicate Persisted(app: App) {
    LoadSaved(app.record) == Success(app.saved)
  }

  /** The invariant the swipe handler keeps: no duplicate saved id, and the saved list persisted. */
  predicate Valid(app: App) {
    UniqueIds(app.saved) && Persisted(app)
  }

  /** First render: an empty deck and the saved list read from storage. */
  function Start(rec: Record): (r: Result<App, LoadError>)
    ensures r.Failure? <==> rec.Malformed?
    ensures r.Success? ==> r.value.cafes == [] && r.value.record == rec && Persisted(r.value)
  {
    match LoadSaved(rec)
    case Success(saved) => Success(App([], saved, rec))
    case Failure(e) => Failure(e)
  }

  /** `handleSwipe(direction, cafe)`: the card leaves the deck; a right swipe of a card whose
      id is not saved yet appends it to the saved list and rewrites the record. */
  function HandleSwipe(app: App, direction: Direction, cafe: Cafe): (r: App)
    ensures r.cafes == RemoveById(app.cafes, cafe.id)
    ensures direction == Left ==> r.saved == app.saved && r.record == app.record
    ensures direction == Right ==> r.saved == AddSaved(app.saved, cafe)
    ensures r.record == app.record || r.record == Serialized(r.saved)
    ensures UniqueIds(app.cafes) ==> UniqueIds(r.cafes)
    ensures Valid(app) ==> Valid(r)
  {
    var cafes := RemoveById(app.cafes, cafe.id);
    RemovePreservesUniqueIds(app.cafes, cafe.id);
    if direction == Left || AnyHasId(app.saved, cafe.id) then
      App(cafes, app.saved, app.record)
    else
      var saved := AddSaved(app.saved, cafe);
      App(cafes, saved, Serialized(saved))
  }

  /** A decision handled twice, as when a button fires again for a card already gone,
      changes nothing the second time. */
  lemma SameDecisionTwice(app: App, direction: Direction, cafe: Cafe)
    ensures HandleSwipe(HandleSwipe(app, direction, cafe), direction, cafe) == HandleSwipe(app, direction, cafe)
  {
    RemoveIdempotent(app.cafes, cafe.id);
  }

  /** After a like, a restart loads a saved list holding the card's id exactly once,
      behind the entries that were there before. */
  lemma LikeSurvivesRestart(app: App, cafe: Cafe)
    requires Valid(app)
    ensures var r := HandleSwipe(app, Right, cafe);
            && Start(r.record).Success?
            && Start(r.record).value.saved == r.saved
            && app.saved <= r.saved
            && AnyHasId(r.saved, cafe.id)
            && UniqueIds(r.saved)
  {
  }

  /** The skip button: a left swipe of the front card, or nothing on an empty deck. */
  function SkipTop(app: App): (r: App)
    ensures r.saved == app.saved && r.record == app.record
    ensures |app.cafes| == 0 ==> r == app
    ensures |app.cafes| > 0 ==> |r.cafes| < |app.cafes| && !AnyHasId(r.cafes, app.cafes[0].id)
    ensures |r.cafes| <= |app.cafes|
    ensures |app.cafes| > 0 ==> r == HandleSwipe(app, Left, app.cafes[0])
    ensures |app.cafes| > 0 ==> forall c :: c in r.cafes <==> c in app.cafes && c.id != app.cafes[0].id
    ensures IsSubsequence(r.cafes, app.cafes)
  {
    if |app.cafes| > 0 then
      assert AnyHasId(app.cafes, app.cafes[0].id);
      RemoveKeepsOrder(app.cafes, app.cafes[0].id);
      HandleSwipe(app, Left, app.cafes[0])
    else app
  }

  /** The like button: a right swipe of the front card, or nothing on an empty deck. */
  function LikeTop(app: App): (r: App)
    ensures |app.cafes| == 0 ==> r == app
    ensures |app.cafes| > 0 ==> |r.cafes| < |app.cafes| && !AnyHasId(r.cafes, app.cafes[0].id)
    ensures |app.cafes| > 0 ==> AnyHasId(r.saved, app.cafes[0].id)
    ensures app.saved <= r.saved && |r.saved| <= |app.saved| + 1
    ensures Valid(app) ==> Valid(r)
    ensures |app.cafes| > 0 ==> r == HandleSwipe(app, Right, app.cafes[0])
    ensures |app.cafes| > 0 ==> forall c :: c in r.cafes <==> c in app.cafes && c.id != app.cafes[0].id
    ensures IsSubsequence(r.cafes, app.cafes)
    ensures |app.cafes| > 0 ==> app.cafes[0] in r.saved || AnyHasId(app.saved, app.cafes[0].id)
    ensures |app.cafes| > 0 ==> forall c :: c in r.saved ==> c in app.saved || c == app.cafes[0]
  {
    if |app.cafes| > 0 then
      assert AnyHasId(app.cafes, app.cafes[0].id);
      RemoveKeepsOrder(app.cafes, app.cafes[0].id);
      HandleSwipe(app, Right, app.cafes[0])
    else app
  }

  /** On a deck without duplicate ids both buttons take off exactly the front card; only
      the like button touches the saved list. */
  lemma ButtonsTakeTheFrontCard(app: App)
    requires |app.cafes| > 0 && UniqueIds(app.cafes)
    ensures SkipTop(app) == App(app.cafes[1..], app.saved, app.record)
    ensures LikeTop(app).cafes == app.cafes[1..]
    ensures LikeTop(app).saved == AddSaved(app.saved, app.cafes[0])
  {
    RemoveFirst(app.cafes);
  }

  /** On [A, A2, B], where A and A2 share an id: both buttons leave exactly [B], and the like
      button saves A itself, not A2. */
  lemma ButtonsOnRepeatedId(a: Cafe, a2: Cafe, b: Cafe)
    requires a.id == a2.id && a.id != b.id && a != a2
    ensures SkipTop(App([a, a2, b], [], NoRecord)).cafes == [b]
    ensures LikeTop(App([a, a2, b], [], NoRecord)).cafes == [b]
    ensures LikeTop(App([a, a2, b], [], NoRecord)).saved == [a]
  {
    assert !AnyHasId([], a.id);
    assert RemoveById([b], a.id) == [b];
    assert RemoveById([a2, b], a.id) == [b];
  }

  /** `loadCafes`: the seed deck while mock data is on, else the nearby fetch. The saved
      list is never touched. */
  function LoadCafes(app: App, useMockData: bool, f: Places.Fetch): (r: App)
    ensures r.saved == app.saved && r.record == app.record
    ensures useMockData ==> r.cafes == SeedCafes()
    ensures useMockData ==> UniqueIds(r.cafes)
    ensures !useMockData && Places.FetchNearbyCafes(app.cafes, f).alert.Some? ==> r == app
  {
    if useMockData then
      var seed := SeedCafes();
      App(seed, app.saved, app.record)
    else App(Places.FetchNearbyCafes(app.cafes, f).cafes, app.saved, app.record)
  }

  /** Pointer events aimed at the deck, starting with the front card's tracker in state `t`.
      An event reaches the front card only if the stack mounted it. A decision is handled
      as soon as it is emitted; the card it names then leaves the deck, and the next front
      card starts with an idle tracker. */
  function DragDeck(app: App, t: Tracker, es: seq<Event>): (r: App)
    ensures Valid(app) ==> Valid(r)
    ensures app.saved <= r.saved
    ensures |r.cafes| <= |app.cafes|
    ensures UniqueIds(app.cafes) ==> UniqueIds(r.cafes)
    ensures (forall i :: 0 <= i < |es| ==> es[i].Down? || es[i].Move?) ==> r == app
    ensures forall c :: c in r.saved ==> c in app.saved || c in app.cafes
    decreases |es|
  {
    if |es| == 0 || |app.cafes| == 0 || !Layout.IsRendered(0, |app.cafes|) then app
    else
      var step := HandleEvent(t, Card(app.cafes[0], true, true), es[0]);
      match step.decision
      case None => DragDeck(app, step.tracker, es[1..])
      case Some(d) => DragDeck(HandleSwipe(app, d.direction, d.cafe), Idle, es[1..])
  }

  /** Handling a decision for the front card of a deck without duplicate ids: exactly the
      front card leaves, and it is the only card the saved list can gain. */
  lemma FrontDecision(app: App, d: Decision)
    requires |app.cafes| > 0 && UniqueIds(app.cafes) && d.cafe == app.cafes[0]
    ensures var next := HandleSwipe(app, d.direction, d.cafe);
            && next.cafes == app.cafes[1..]
            && UniqueIds(next.cafes)
            && forall c :: c in next.saved ==> c in app.saved || c == app.cafes[0]
  {
    RemoveFirst(app.cafes);
  }

  /** Slicing facts for a deck that lost its front card and then `k` more. */
  lemma DropMore(cafes: seq<Cafe>, k: nat)
    requires 0 < |cafes| && k <= |cafes| - 1
    ensures cafes[1..][k..] == cafes[k + 1..]
    ensures forall c :: c in cafes[1..][..k] ==> c in cafes[..k + 1]
    ensures cafes[0] in cafes[..k + 1]
  {
    assert cafes[1..][..k] == cafes[1..k + 1];
    assert cafes[..k + 1][0] == cafes[0];
  }

  /** `after` is `before` with its first `k` cards taken off, and its saved list gained no
      card other than one of those `k`. */
  ghost predicate TookFront(before: App, after: App, k: int) {
    && 0 <= k <= |before.cafes|
    && after.cafes == before.cafes[k..]
    && forall c :: c in after.saved ==> c in before.saved || c in before.cafes[..k]
  }

  /** On a deck without duplicate ids, a run of pointer events takes cards off the front
      only, and saves no card other than one it took off. */
  lemma {:induction false} DragTakesFrontCards(app: App, t: Tracker, es: seq<Event>)
    requires UniqueIds(app.cafes)
    ensures exists k :: TookFront(app, DragDeck(app, t, es), k)
    decreases |es|
  {
    var r := DragDeck(app, t, es);
    if |es| == 0 || |app.cafes| == 0 || !Layout.IsRendered(0, |app.cafes|) {
      assert r == app;
      assert TookFront(app, r, 0);
    } else {
      var card := Card(app.cafes[0], true, true);
      var step := HandleEvent(t, card, es[0]);
      if step.decision.None? {
        assert r == DragDeck(app, step.tracker, es[1..]);
        DragTakesFrontCards(app, step.tracker, es[1..]);
      } else {
        var d := step.decision.value;
        var next := HandleSwipe(app, d.direction, d.cafe);
        assert r == DragDeck(next, Idle, es[1..]);
        FrontDecision(app, d);
        DragTakesFrontCards(next, Idle, es[1..]);
        var k :| TookFront(next, r, k);
        DropMore(app.cafes, k);
        assert TookFront(app, r, k + 1);
      }
    }
  }

  /** A run of pointer events on the deck as first rendered, with every tracker idle. */
  function DragTopCard(app: App, es: seq<Event>): (r: App)
    ensures Valid(app) ==> Valid(r)
    ensures app.saved <= r.saved
    ensures |r.cafes| <= |app.cafes|
    ensures UniqueIds(app.cafes) ==> UniqueIds(r.cafes)
    ensures (forall i :: 0 <= i < |es| ==> es[i].Down? || es[i].Move?) ==> r == app
    ensures forall c :: c in r.saved ==> c in app.saved || c in app.cafes
    ensures UniqueIds(app.cafes) ==> exists k :: TookFront(app, r, k)
  {
    if UniqueIds(app.cafes) then
      DragTakesFrontCards(app, Idle, es);
      DragDeck(app, Idle, es)
    else
      DragDeck(app, Idle, es)
  }

  /** A left flick then a right flick on [A, B, C]: A goes unsaved, and the two cards left
      are no longer mounted, so the second flick reaches nothing. */
  lemma FlickThenFlick(a: Cafe, b: Cafe, c: Cafe)
    requires a.id != b.id && b.id != c.id && a.id != c.id
    ensures DragTopCard(App([a, b, c], [], NoRecord),
                        [Down(Pointer(0, 0)), Up(Pointer(-150, 0)), Down(Pointer(0, 0)), Up(Pointer(150, 0))])
            == App([b, c], [], NoRecord)
  {
    var app := App([a, b, c], [], NoRecord);
    var es := [Down(Pointer(0, 0)), Up(Pointer(-150, 0)), Down(Pointer(0, 0)), Up(Pointer(150, 0))];
    var card := Card(a, true, true);
    assert UniqueIds([a, b, c]);
    RemoveFirst([a, b, c]);
    assert [a, b, c][1..] == [b, c];
    var s1 := HandleEvent(Idle, card, es[0]);
    assert s1 == Step(Dragging(0, 0), Unpainted, None);
    assert es[1..][0] == Up(Pointer(-150, 0));
    var s2 := HandleEvent(s1.tracker, card, es[1..][0]);
    assert s2.decision == Some(Decision(Left, a));
    var app1 := HandleSwipe(app, Left, a);
    assert app1 == App([b, c], [], NoRecord);
    assert DragDeck(app, Idle, es) == DragDeck(app, Dragging(0, 0), es[1..]);
    assert DragDeck(app, Dragging(0, 0), es[1..]) == DragDeck(app1, Idle, es[1..][1..]);
  }

  /** One press-and-release on the front card of a deck of three or more: a short drag
      changes nothing; a long one takes off the front card and, to the right only, saves it. */
  lemma SwipeFrontCard(app: App, down: Pointer, up: Pointer)
    requires |app.cafes| >= 3
    ensures var r := DragTopCard(app, [Down(down), Up(up)]);
            var dx := up.clientX - down.clientX;
            && (-Threshold <= dx <= Threshold ==> r == app)
            && (dx > Threshold ==> r == HandleSwipe(app, Right, app.cafes[0]))
            && (dx < -Threshold ==> r == HandleSwipe(app, Left, app.cafes[0]))
            && (UniqueIds(app.cafes) && dx > Threshold ==>
                  r.cafes == app.cafes[1..] && r.saved == AddSaved(app.saved, app.cafes[0]))
            && (UniqueIds(app.cafes) && dx < -Threshold ==> r == App(app.cafes[1..], app.saved, app.record))
  {
    var card := Card(app.cafes[0], true, true);
    var es := [Down(down), Up(up)];
    if UniqueIds(app.cafes) {
      RemoveFirst(app.cafes);
    }
    var t := Dragging(down.clientX, down.clientY);
    assert HandleEvent(Idle, card, es[0]) == Step(t, Unpainted, None);
    assert es[1..] == [Up(up)] && es[1..][1..] == [];
    assert DragDeck(app, Idle, es) == DragDeck(app, t, [Up(up)]);
  }

  /** A deck of one or two cards mounts no card, so no drag can reach it; only the buttons
      can empty it. */
  lemma ShortDeckIgnoresDrags(app: App, es: seq<Event>)
    requires 1 <= |app.cafes| <= 2
    ensures DragTopCard(app, es) == app
    ensures |SkipTop(app).cafes| < |app.cafes|
  {
  }

  /** Ending a drag with a cancel has the same effect on the deck and the saved list as
      ending it with a release at the same point. */
  lemma CancelActsAsRelease(app: App, down: Pointer, at: Pointer)
    ensures DragTopCard(app, [Down(down), Cancel(at)]) == DragTopCard(app, [Down(down), Up(at)])
  {
    if |app.cafes| > 0 {
      var card := Card(app.cafes[0], true, true);
      var t := HandleEvent(Idle, card, Down(down)).tracker;
      assert [Down(down), Cancel(at)][1..] == [Cancel(at)];
      assert [Down(down), Up(at)][1..] == [Up(at)];
      assert DragDeck(app, t, [Cancel(at)]) == DragDeck(app, t, [Up(at)]);
    }
  }

  /** Deck [A, B, C], nothing saved: a long drag of A to the right, released or cancelled,
      takes A off and saves it. */
  lemma LikeScenario(a: Cafe, b: Cafe, c: Cafe)
    requires a.id != b.id && b.id != c.id && a.id != c.id
    ensures var app0 := App([a, b, c], [], NoRecord);
            var app1 := App([b, c], [a], Serialized([a]));
            && DragTopCard(app0, [Down(Pointer(0, 0)), Up(Pointer(150, 0))]) == app1
            && DragTopCard(app0, [Down(Pointer(0, 0)), Cancel(Pointer(150, 0))]) == app1
  {
    var app0 := App([a, b, c], [], NoRecord);
    assert UniqueIds([a, b, c]);
    SwipeFrontCard(app0, Pointer(0, 0), Pointer(150, 0));
    CancelActsAsRelease(app0, Pointer(0, 0), Pointer(150, 0));
    assert [a, b, c][1..] == [b, c];
    assert AddSaved([], a) == [a];
    assert HandleSwipe(app0, Right, a) == App([b, c], [a], Serialized([a]));
  }

  /** Continuing with [B, C] and A saved: no drag reaches B, while the skip button takes
      it off and leaves the saved list alone. */
  lemma SkipScenario(a: Cafe, b: Cafe, c: Cafe)
    requires b.id != c.id
    ensures var app1 := App([b, c], [a], Serialized([a]));
            && DragTopCard(app1, [Down(Pointer(0, 0)), Up(Pointer(-150, 0))]) == app1
            && SkipTop(app1) == App([c], [a], Serialized([a]))
  {
    assert UniqueIds([b, c]);
    RemoveFirst([b, c]);
    assert [b, c][1..] == [c];
  }
}

=== FILE: deck.dfy ===
/** The two list operations behind a swipe: removing a card from the deck by id (a
    `filter`) and adding a liked card to the saved list unless its id is already there. */
module Deck {
  import opened Cafes

  /** `a` occurs in `b` in the same relative order, possibly with gaps (greedy match). */
  ghost predicate IsSubsequence<T>(a: seq<T>, b: seq<T>)
    decreases |b|
  {
    if |a| == 0 then true
    else if |b| == 0 then false
    else if a[0] == b[0] then IsSubsequence(a[1..], b[1..])
    else IsSubsequence(a, b[1..])
  }

  /** The deck without every card that carries `id`; the other cards stay in their order. */
  function RemoveById(deck: seq<Cafe>, id: CafeId): (r: seq<Cafe>)
    ensures |r| <= |deck|
    ensures |r| < |deck| <==> AnyHasId(deck, id)
    ensures forall c :: c in r <==> c in deck && c.id != id
    decreases |deck|
  {
    if |deck| == 0 then []
    else if deck[0].id != id then [deck[0]] + RemoveById(deck[1..], id)
    else RemoveById(deck[1..], id)
  }

  /** Removing an id that no card carries leaves the deck as it was. */
  lemma {:induction false} RemoveAbsentIsIdentity(deck: seq<Cafe>, id: CafeId)
    requires !AnyHasId(deck, id)
    ensures RemoveById(deck, id) == deck
    decreases |deck|
  {
    if |deck| > 0 {
      assert deck[0].id != id;
      assert !AnyHasId(deck[1..], id);
      RemoveAbsentIsIdentity(deck[1..], id);
      assert deck == [deck[0]] + deck[1..];
    }
  }

  /** Removal works piecewise: it distributes over concatenation. */
  lemma {:induction false} RemoveDistributes(a: seq<Cafe>, b: seq<Cafe>, id: CafeId)
    ensures RemoveById(a + b, id) == RemoveById(a, id) + RemoveById(b, id)
    decreases |a|
  {
    if |a| == 0 {
      assert a + b == b;
    } else {
      assert (a + b)[0] == a[0];
      assert (a + b)[1..] == a[1..] + b;
      RemoveDistributes(a[1..], b, id);
    }
  }

  /** The surviving cards keep their relative order. */
  lemma {:induction false} RemoveKeepsOrder(deck: seq<Cafe>, id: CafeId)
    ensures IsSubsequence(RemoveById(deck, id), deck)
    decreases |deck|
  {
    if |deck| > 0 {
      RemoveKeepsOrder(deck[1..], id);
      var r := RemoveById(deck, id);
      if deck[0].id != id {
        assert r[0] == deck[0] && r[1..] == RemoveById(deck[1..], id);
      } else if |r| > 0 {
        assert r[0] in r;
        assert r[0] != deck[0];
      }
    }
  }

  /** Removing the same id twice is the same as removing it once. */
  lemma RemoveIdempotent(deck: seq<Cafe>, id: CafeId)
    ensures RemoveById(RemoveById(deck, id), id) == RemoveById(deck, id)
  {
    var r := RemoveById(deck, id);
    forall i | 0 <= i < |r| ensures r[i].id != id {
      assert r[i] in r;
    }
    RemoveAbsentIsIdentity(r, id);
  }

  /** In a deck without duplicate ids, removing the first card's id leaves exactly the rest. */
  lemma RemoveFirst(deck: seq<Cafe>)
    requires |deck| > 0 && UniqueIds(deck)
    ensures RemoveById(deck, deck[0].id) == deck[1..]
  {
    TailOfUnique(deck);
    RemoveAbsentIsIdentity(deck[1..], deck[0].id);
  }

  /** The tail of a deck without duplicate ids has none either, and lacks the head's id. */
  lemma TailOfUnique(deck: seq<Cafe>)
    requires |deck| > 0 && UniqueIds(deck)
    ensures UniqueIds(deck[1..])
    ensures !AnyHasId(deck[1..], deck[0].id)
  {
    var rest := deck[1..];
    forall i, j | 0 <= i < j < |rest| ensures rest[i].id != rest[j].id {
      assert rest[i] == deck[i + 1] && rest[j] == deck[j + 1];
    }
    forall i | 0 <= i < |rest| ensures rest[i].id != deck[0].id {
      assert rest[i] == deck[i + 1];
    }
  }

  /** In a deck without duplicate ids, removing a present id drops exactly one card. */
  lemma {:induction false} RemovePresentShrinksByOne(deck: seq<Cafe>, id: CafeId)
    requires UniqueIds(deck) && AnyHasId(deck, id)
    ensures |RemoveById(deck, id)| == |deck| - 1
    decreases |deck|
  {
    TailOfUnique(deck);
    if deck[0].id == id {
      RemoveAbsentIsIdentity(deck[1..], id);
    } else {
      RemovePresentShrinksByOne(deck[1..], id);
    }
  }

  /** Removal never introduces a duplicate id. */
  lemma {:induction false} RemovePreservesUniqueIds(deck: seq<Cafe>, id: CafeId)
    ensures UniqueIds(deck) ==> UniqueIds(RemoveById(deck, id))
    decreases |deck|
  {
    if |deck| > 0 && UniqueIds(deck) {
      var rest := deck[1..];
      TailOfUnique(deck);
      RemovePreservesUniqueIds(rest, id);
      if deck[0].id != id {
        var tail := RemoveById(rest, id);
        var r := [deck[0]] + tail;
        forall j | 0 < j < |r| ensures r[0].id != r[j].id {
          assert r[j] == tail[j - 1] && tail[j - 1] in tail;
          var k :| 0 <= k < |rest| && rest[k] == r[j];
          assert deck[k + 1] == r[j];
        }
        assert UniqueIds(r);
      }
    }
  }

  /** The right-swipe save: the list is kept as it is when some entry already carries the
      card's id, and otherwise the card is appended at the end. */
  function AddSaved(saved: seq<Cafe>, cafe: Cafe): (r: seq<Cafe>)
    ensures saved <= r
    ensures |r| <= |saved| + 1
    ensures AnyHasId(r, cafe.id)
    ensures cafe in r || AnyHasId(saved, cafe.id)
    ensures forall c :: c in r ==> c in saved || c == cafe
    ensures UniqueIds(saved) ==> UniqueIds(r)
  {
    if AnyHasId(saved, cafe.id) then saved
    else
      var r := saved + [cafe];
      assert r[|saved|].id == cafe.id;
      r
  }

  /** The save appends exactly when the id is new and is a no-op otherwise. */
  lemma AddSavedAppendsIffNew(saved: seq<Cafe>, cafe: Cafe)
    ensures AddSaved(saved, cafe) == saved + [cafe] <==> !AnyHasId(saved, cafe.id)
    ensures AddSaved(saved, cafe) == saved <==> AnyHasId(saved, cafe.id)
  {
    if AnyHasId(saved, cafe.id) {
      assert |saved + [cafe]| != |saved|;
    }
  }

  /** Saving the same card twice is the same as saving it once. */
  lemma AddSavedIdempotent(saved: seq<Cafe>, cafe: Cafe)
    ensures AddSaved(AddSaved(saved, cafe), cafe) == AddSaved(saved, cafe)
  {
  }
}

=== FILE: gesture.dfy ===
/** The pointer state machine of a swipeable card: a press on the top card starts a drag,
    moves make the card follow the pointer, and a release either commits a swipe (the card
    flies out and a decision is emitted) or snaps the card back. A cancel is handled by the
    very same code as a release. */
module Gesture {
  import opened Results
  import opened Cafes

  /** Horizontal travel, in pixels, that a release must strictly exceed to commit. */
  const Threshold: int := 100
  /** Horizontal offset, in pixels, a committed card is animated out to. */
  const ExitOffset: int := 1000
  /** Degrees of card rotation per pixel of horizontal travel. */
  const RotationPerPixel: real := 0.05

  datatype Direction = Left | Right

  /** `isDragging` together with `startPos`; the start is only read while dragging. */
  datatype Tracker = Idle | Dragging(startX: int, startY: int)

  datatype Pointer = Pointer(clientX: int, clientY: int)

  datatype Event = Down(at: Pointer) | Move(at: Pointer) | Up(at: Pointer) | Cancel(at: Pointer)

  /** What the handlers see of their card: its data, whether it is the top of the deck,
      and whether its element is mounted (`cardRef.current` is set). */
  datatype Card = Card(data: Cafe, isTop: bool, mounted: bool)

  /** The inline transform a handler writes to the card element, if any. */
  datatype Paint =
    | Unpainted
    | Follow(offsetX: int, rotation: real)
    | SnapBack
    | FlyOut(exitX: int, rotation: real)

  /** A committed swipe, delivered to the deck as `onSwipe(direction, data)`. */
  datatype Decision = Decision(direction: Direction, cafe: Cafe)

  /** The outcome of handling one event. */
  datatype Step = Step(tracker: Tracker, paint: Paint, decision: Option<Decision>)

  function Abs(x: int): nat {
    if x < 0 then -x else x
  }

  /** The tilt that accompanies a horizontal offset. */
  function Rotation(deltaX: int): (deg: real)
    ensures deg / RotationPerPixel == deltaX as real
    ensures deg > 0.0 <==> deltaX > 0
    ensures deg < 0.0 <==> deltaX < 0
  {
    deltaX as real * RotationPerPixel
  }

  /** Whether move, up and cancel events are acted upon at all. */
  predicate Tracking(t: Tracker, card: Card) {
    t.Dragging? && card.isTop && card.mounted
  }

  /** Pointer-down: only the top card starts (or restarts) a drag, at the press position. */
  function PointerDown(t: Tracker, card: Card, p: Pointer): (r: Tracker)
    ensures !card.isTop ==> r == t
    ensures card.isTop ==> r.Dragging? && r.startX == p.clientX && r.startY == p.clientY
  {
    if !card.isTop then t else Dragging(p.clientX, p.clientY)
  }

  /** Pointer-move: while tracking, the card follows the pointer horizontally and tilts. */
  function PointerMove(t: Tracker, card: Card, p: Pointer): (r: Paint)
    ensures !Tracking(t, card) ==> r == Unpainted
    ensures Tracking(t, card) ==> r.Follow? && r.offsetX + t.startX == p.clientX
                                   && r.rotation / RotationPerPixel == r.offsetX as real
  {
    if !Tracking(t, card) then Unpainted
    else
      var deltaX := p.clientX - t.startX;
      Follow(deltaX, Rotation(deltaX))
  }

  /** Pointer-up (and pointer-cancel): ends a tracked drag, committing iff the horizontal
      travel strictly exceeds the threshold in either direction. */
  function PointerUp(t: Tracker, card: Card, p: Pointer): (r: Step)
    ensures !Tracking(t, card) ==> r == Step(t, Unpainted, None)
    ensures Tracking(t, card) ==> r.tracker == Idle
    ensures Tracking(t, card) ==>
      var dx := p.clientX - t.startX;
      && (r.decision.Some? <==> dx > Threshold || dx < -Threshold)
      && (r.decision.None? ==> r.paint == SnapBack)
      && (r.decision.Some? ==>
            && r.decision.value.cafe == card.data
            && (r.decision.value.direction == Right <==> dx > 0)
            && r.paint.FlyOut?
            && Abs(r.paint.exitX) == ExitOffset
            && (r.paint.exitX > 0 <==> dx > 0)
            && r.paint.rotation == PointerMove(t, card, p).rotation)
  {
    if !Tracking(t, card) then Step(t, Unpainted, None)
    else
      var deltaX := p.clientX - t.startX;
      if Abs(deltaX) > Threshold then
        var direction := if deltaX > 0 then Right else Left;
        var endX := if direction == Right then ExitOffset else -ExitOffset;
        Step(Idle, FlyOut(endX, Rotation(deltaX)), Some(Decision(direction, card.data)))
      else
        Step(Idle, SnapBack, None)
  }

  /** Dispatches one event to its handler; `onPointerCancel` is wired to the up handler. */
  function HandleEvent(t: Tracker, card: Card, e: Event): (r: Step)
    ensures e.Down? ==> r.decision.None? && r.paint == Unpainted
    ensures e.Down? && !card.isTop ==> r.tracker == t
    ensures e.Move? ==> r.tracker == t && r.decision.None?
    ensures !e.Down? && !Tracking(t, card) ==> r == Step(t, Unpainted, None)
    ensures e.Up? || e.Cancel? ==> r == PointerUp(t, card, e.at)
    ensures r.decision.Some? ==> (e.Up? || e.Cancel?) && r.tracker == Idle && r.decision.value.cafe == card.data
  {
    match e
    case Down(p) => Step(PointerDown(t, card, p), Unpainted, None)
    case Move(p) => Step(t, PointerMove(t, card, p), None)
    case Up(p) => PointerUp(t, card, p)
    case Cancel(p) => PointerUp(t, card, p)
  }

  /** The tracker after a run of events, with every decision emitted on the way, in order. */
  datatype Trace = Trace(tracker: Tracker, decisions: seq<Decision>)

  function Run(t: Tracker, card: Card, es: seq<Event>): (r: Trace)
    ensures |r.decisions| <= |es|
    ensures forall i :: 0 <= i < |r.decisions| ==> r.decisions[i].cafe == card.data
    decreases |es|
  {
    if |es| == 0 then Trace(t, [])
    else
      var step := HandleEvent(t, card, es[0]);
      var rest := Run(step.tracker, card, es[1..]);
      var emitted := if step.decision.Some? then [step.decision.value] else [];
      Trace(rest.tracker, emitted + rest.decisions)
  }

  /** The number of presses in a run of events. */
  function Presses(es: seq<Event>): nat
    decreases |es|
  {
    if |es| == 0 then 0 else (if es[0].Down? then 1 else 0) + Presses(es[1..])
  }

  /** At most one decision per drag session: every decision is paid for by a press of the
      run, or by the drag already in progress when the run starts. */
  lemma {:induction false} OneDecisionPerSession(t: Tracker, card: Card, es: seq<Event>)
    ensures |Run(t, card, es).decisions| <= (if t.Dragging? then 1 else 0) + Presses(es)
    decreases |es|
  {
    if |es| > 0 {
      var step := HandleEvent(t, card, es[0]);
      OneDecisionPerSession(step.tracker, card, es[1..]);
    }
  }

  /** A card that is not on top neither starts a drag nor emits a decision. */
  lemma {:induction false} NonTopCardIsInert(t: Tracker, card: Card, es: seq<Event>)
    requires !card.isTop
    ensures Run(t, card, es) == Trace(t, [])
    decreases |es|
  {
    if |es| > 0 {
      NonTopCardIsInert(t, card, es[1..]);
    }
  }

  /** Whatever happened before, a final release or cancel on the mounted top card leaves the
      tracker idle, so no drag can stay stuck. */
  lemma {:induction false} ReleaseEndsDrag(t: Tracker, card: Card, es: seq<Event>, last: Event)
    requires card.isTop && card.mounted
    requires last.Up? || last.Cancel?
    ensures Run(t, card, es + [last]).tracker == Idle
    decreases |es|
  {
    if |es| > 0 {
      var step := HandleEvent(t, card, es[0]);
      assert (es + [last])[0] == es[0];
      assert (es + [last])[1..] == es[1..] + [last];
      ReleaseEndsDrag(step.tracker, card, es[1..], last);
    }
  }

  /** A press followed by a release on the top card: the whole gesture in one place. */
  lemma PressRelease(card: Card, down: Pointer, up: Pointer)
    requires card.isTop && card.mounted
    ensures var tr := Run(Idle, card, [Down(down), Up(up)]);
            var dx := up.clientX - down.clientX;
            && tr.tracker == Idle
            && (Abs(dx) <= Threshold ==> tr.decisions == [])
            && (dx > Threshold ==> tr.decisions == [Decision(Right, card.data)])
            && (dx < -Threshold ==> tr.decisions == [Decision(Left, card.data)])
  {
    var s1 := HandleEvent(Idle, card, Down(down));
    assert s1.tracker == Dragging(down.clientX, down.clientY);
    var s2 := HandleEvent(s1.tracker, card, Up(up));
    assert [Down(down), Up(up)][1..] == [Up(up)];
    assert [Up(up)][1..] == [];
    var tail := Run(s2.tracker, card, []);
    var second := Run(s1.tracker, card, [Up(up)]);
    assert second.decisions == (if s2.decision.Some? then [s2.decision.value] else []) + tail.decisions;
    assert Run(Idle, card, [Down(down), Up(up)]) == Trace(second.tracker, second.decisions);
  }

  /** A cancel behaves as a release, so a cancelled long drag still commits. */
  lemma CancelCanCommit(card: Card)
    requires card.isTop && card.mounted
    ensures HandleEvent(Dragging(0, 0), card, Cancel(Pointer(150, 0))).decision
            == Some(Decision(Right, card.data))
  {
  }
}

=== FILE: layout.dfy ===
/** The visual stack: each card's depth styling as a function of its position from the
    top (index 0), and the filter that decides which positions are rendered at all. */
module Layout {
  import opened Cafes

  /** z-index of the top card; each position further down sits one lower. */
  const BaseZ: int := 100
  /** Scale lost per position from the top. */
  const ScaleStep: real := 0.05
  /** Downward offset, in pixels, per position from the top. */
  const OffsetStep: int := 15
  /** The deepest position that is still drawn opaque. */
  const DeepestVisible: nat := 2

  datatype CardStyle = CardStyle(zIndex: int, scale: real, translateY: int, opacity: int)

  /** The inline style of the card at `index`. */
  function StyleAt(index: nat): (s: CardStyle)
    ensures s.opacity == 0 || s.opacity == 1
    ensures s.opacity == 1 <==> index <= DeepestVisible
    ensures s.zIndex <= BaseZ && (s.zIndex == BaseZ <==> index == 0)
    ensures s.scale <= 1.0 && (s.scale == 1.0 <==> index == 0)
    ensures s.translateY >= 0 && (s.translateY == 0 <==> index == 0)
  {
    CardStyle(BaseZ - index,
              1.0 - index as real * ScaleStep,
              index * OffsetStep,
              if index > DeepestVisible then 0 else 1)
  }

  /** Depth is strictly ordered by distance from the top: a deeper card is stacked below,
      drawn smaller, shifted further down, and never more opaque. */
  lemma DeeperCardsSitBehind(i: nat, j: nat)
    requires i < j
    ensures StyleAt(i).zIndex > StyleAt(j).zIndex
    ensures StyleAt(i).scale > StyleAt(j).scale
    ensures StyleAt(i).translateY < StyleAt(j).translateY
    ensures StyleAt(i).opacity >= StyleAt(j).opacity
  {
  }

  /** Each position further from the top is one z-index lower, one scale step smaller
      and one offset step further down. */
  lemma StyleSteps(i: nat)
    ensures StyleAt(i + 1).zIndex == StyleAt(i).zIndex - 1
    ensures StyleAt(i + 1).scale == StyleAt(i).scale - ScaleStep
    ensures StyleAt(i + 1).translateY == StyleAt(i).translateY + OffsetStep
  {
  }

  /** The render filter: a position is skipped when `index > length - 3`. */
  predicate IsRendered(index: nat, length: nat) {
    !(index > length - 3)
  }

  /** A mounted card: its position, data, whether it is interactive, and its style. */
  datatype Rendered = Rendered(index: nat, cafe: Cafe, isTop: bool, style: CardStyle)

  /** The cards the stack mounts, front to back, from position `from` on: one per position
      that passes the render filter. */
  function RenderFrom(cafes: seq<Cafe>, from: nat): (r: seq<Rendered>)
    requires from <= |cafes|
    ensures |r| == if from + 2 < |cafes| then |cafes| - 2 - from else 0
    ensures forall k :: 0 <= k < |r| ==>
              && r[k].index == from + k
              && r[k].cafe == cafes[from + k]
              && r[k].style == StyleAt(from + k)
              && (r[k].isTop <==> from + k == 0)
    decreases |cafes| - from
  {
    if from == |cafes| then []
    else
      var here := if IsRendered(from, |cafes|)
                  then [Rendered(from, cafes[from], from == 0, StyleAt(from))]
                  else [];
      here + RenderFrom(cafes, from + 1)
  }

  /** The whole mounted stack: all but the last two positions of the deck. */
  function RenderStack(cafes: seq<Cafe>): (r: seq<Rendered>)
    ensures |r| == if |cafes| >= 3 then |cafes| - 2 else 0
    ensures forall k :: 0 <= k < |r| ==>
              && r[k].index == k
              && r[k].cafe == cafes[k]
              && r[k].style == StyleAt(k)
              && (r[k].isTop <==> k == 0)
  {
    RenderFrom(cafes, 0)
  }

  /** The rendered cards are exactly the first `length - 2` positions, so the last two cards
      of any deck are never mounted, and a deck of one or two cards shows nothing. */
  lemma RenderedPositions(cafes: seq<Cafe>, index: nat)
    requires index < |cafes|
    ensures (exists k :: 0 <= k < |RenderStack(cafes)| && RenderStack(cafes)[k].index == index)
            <==> index + 3 <= |cafes|
  {
    var r := RenderStack(cafes);
    if index + 3 <= |cafes| {
      assert r[index].index == index;
    }
  }

  /** The interactive top card is mounted iff the deck holds at least three cards; when it
      is, it is the only interactive card and it is drawn frontmost. */
  lemma TopCardMountedIff(cafes: seq<Cafe>)
    ensures (exists k :: 0 <= k < |RenderStack(cafes)| && RenderStack(cafes)[k].isTop) <==> |cafes| >= 3
    ensures forall k :: 0 <= k < |RenderStack(cafes)| && RenderStack(cafes)[k].isTop ==>
              k == 0 && RenderStack(cafes)[k].cafe == cafes[0] && RenderStack(cafes)[k].style.zIndex == BaseZ
  {
    var r := RenderStack(cafes);
    if |cafes| >= 3 {
      assert r[0].isTop;
    }
  }
}

=== FILE: places.dfy ===
/** The nearby-search path: mapping upstream place records to cards, and what the fetch
    does to the deck on success, on a missing result list and on failure. */
module Places {
  import opened Results
  import opened Cafes

  /** The placeholder API key compiled into the client. */
  const ApiKey: string := "YOUR_API_KEY_HERE"
  const PhotoEndpoint: string := "https://maps.googleapis.com/maps/api/place/photo?maxwidth=400&photoreference="
  const KeyParameter: string := "&key="
  /** Photo shown for a place that has no `photos` field. */
  const Placeholder: string := "https://via.placeholder.com/400x300?text=No+Image"

  const GeolocationUnsupportedAlert: string := "Geolocation is not supported"
  const FetchFailedAlert: string := "Failed to load cafes. Check console."

  datatype PlacePhoto = PlacePhoto(photoReference: string)
  datatype OpeningHours = OpeningHours(openNow: Option<bool>)

  /** The fields of an upstream result that the client reads. */
  datatype Place = Place(placeId: string, name: string, rating: Option<real>,
                         openingHours: Option<OpeningHours>, photos: Option<seq<PlacePhoto>>)

  /** The exceptions the normaliser can raise. */
  datatype MappingError =
    /** `photos` is present but empty, so reading `photos[0].photo_reference` throws. */
    | FirstPhotoMissing

  function KeySuffix(): string {
    KeyParameter + ApiKey
  }

  /** The photo URL built from a photo reference. */
  function PhotoUrl(reference: string): (url: string)
    ensures PhotoEndpoint <= url
    ensures |url| > |Placeholder|
  {
    PhotoEndpoint + reference + KeySuffix()
  }

  /** Recovers the photo reference from a URL built by `PhotoUrl`; `None` for any other URL shape. */
  function PhotoReferenceOf(url: string): Option<string> {
    var n, m := |PhotoEndpoint|, |KeySuffix()|;
    if |url| >= n + m && url[..n] == PhotoEndpoint && url[|url| - m..] == KeySuffix()
    then Some(url[n..|url| - m])
    else None
  }

  /** The photo URL encodes its reference losslessly. */
  lemma PhotoUrlRoundTrip(reference: string)
    ensures PhotoReferenceOf(PhotoUrl(reference)) == Some(reference)
  {
    var url := PhotoUrl(reference);
    var n, m := |PhotoEndpoint|, |KeySuffix()|;
    assert url[..n] == PhotoEndpoint;
    assert url[|url| - m..] == KeySuffix();
    assert url[n..|url| - m] == reference;
  }

  /** One upstream record as a card. */
  function ToCafe(p: Place): (r: Result<Cafe, MappingError>)
    ensures r.Failure? <==> p.photos == Some([])
    ensures r.Success? ==>
      && r.value.id == PlaceId(p.placeId)
      && r.value.name == p.name
      && r.value.rating == p.rating
      && (p.openingHours.None? ==> r.value.openNow.None?)
      && (p.openingHours.Some? ==> r.value.openNow == p.openingHours.value.openNow)
      && (r.value.photo == Placeholder <==> p.photos.None?)
      && (p.photos.Some? ==> PhotoReferenceOf(r.value.photo) == Some(p.photos.value[0].photoReference))
  {
    var openNow := if p.openingHours.Some? then p.openingHours.value.openNow else None;
    match p.photos
    case None => Success(Cafe(PlaceId(p.placeId), p.name, p.rating, openNow, Placeholder))
    case Some(photos) =>
      if |photos| == 0 then Failure(FirstPhotoMissing)
      else
        PhotoUrlRoundTrip(photos[0].photoReference);
        Success(Cafe(PlaceId(p.placeId), p.name, p.rating, openNow, PhotoUrl(photos[0].photoReference)))
  }

  /** Every record mapped, in order, or the first exception raised. */
  function ToCafes(ps: seq<Place>): (r: Result<seq<Cafe>, MappingError>)
    ensures r.Failure? <==> exists i :: 0 <= i < |ps| && ToCafe(ps[i]).Failure?
    ensures r.Success? ==> |r.value| == |ps|
    ensures r.Success? ==> forall i :: 0 <= i < |ps| ==> ToCafe(ps[i]) == Success(r.value[i])
    decreases |ps|
  {
    if |ps| == 0 then Success([])
    else
      match ToCafe(ps[0])
      case Failure(e) => Failure(e)
      case Success(c) =>
        match ToCafes(ps[1..])
        case Failure(e) =>
          assert exists i :: 0 <= i < |ps[1..]| && ToCafe(ps[1..][i]).Failure?;
          var i :| 0 <= i < |ps[1..]| && ToCafe(ps[1..][i]).Failure?;
          assert ToCafe(ps[i + 1]).Failure?;
          Failure(e)
        case Success(cs) =>
          var r := [c] + cs;
          assert forall i :: 0 < i < |ps| ==> ps[i] == ps[1..][i - 1];
          assert forall i :: 0 <= i < |ps| ==> ToCafe(ps[i]) == Success(r[i]);
          Success(r)
  }

  /** The reply body of the nearby-search proxy, as far as the client reads it. */
  datatype Reply = Reply(results: Option<seq<Place>>)

  /** How the asynchronous part of a nearby fetch ended. `Rejected` covers a denied position
      request, a failed request and an unreadable body. */
  datatype Fetch = NoGeolocation | Rejected | Replied(reply: Reply)

  /** The deck after a fetch, and the alert shown to the user, if any. */
  datatype FetchOutcome = FetchOutcome(cafes: seq<Cafe>, alert: Option<string>)

  /** The nearby fetch: replaces the deck with the mapped results when the reply has a
      result list and every record maps; otherwise the deck is left as it was. */
  function FetchNearbyCafes(current: seq<Cafe>, f: Fetch): (r: FetchOutcome)
    ensures r.alert.Some? ==> r.cafes == current
    ensures r.alert == Some(GeolocationUnsupportedAlert) <==> f.NoGeolocation?
    ensures f.Rejected? ==> r.alert == Some(FetchFailedAlert)
    ensures f.Replied? && f.reply.results.None? ==> r == FetchOutcome(current, None)
    ensures f.Replied? && f.reply.results.Some? ==>
              var ps := f.reply.results.value;
              (ToCafes(ps).Success? ==> r == FetchOutcome(ToCafes(ps).value, None)) &&
              (ToCafes(ps).Failure? ==> r == FetchOutcome(current, Some(FetchFailedAlert)))
  {
    match f
    case NoGeolocation => FetchOutcome(current, Some(GeolocationUnsupportedAlert))
    case Rejected => FetchOutcome(current, Some(FetchFailedAlert))
    case Replied(reply) =>
      match reply.results
      case None => FetchOutcome(current, None)
      case Some(ps) =>
        match ToCafes(ps)
        case Success(cs) => FetchOutcome(cs, None)
        case Failure(_) => FetchOutcome(current, Some(FetchFailedAlert))
  }

  /** Nothing stops two upstream records with one `place_id` from both landing in the deck. */
  lemma FetchMayRepeatIds(p: Place)
    requires p.photos.None?
    ensures var out := FetchNearbyCafes([], Replied(Reply(Some([p, p]))));
            |out.cafes| == 2 && !UniqueIds(out.cafes)
  {
    var out := FetchNearbyCafes([], Replied(Reply(Some([p, p]))));
    assert out.cafes[0].id == out.cafes[1].id;
  }
}

=== FILE: results.dfy ===
/** Failure-carrying wrappers used throughout the model: `Option` for JavaScript's
    `undefined`-or-value fields and `Result` for operations that can throw. */
module Results {

  datatype Option<+T> = None | Some(value: T)

  datatype Result<+R, +E> = Success(value: R) | Failure(error: E)
}
